=== FILE: README.md ===
# String Calculator in Dafny

A model of the iOS String Calculator kata's core: `StringCalculator.add`,
which turns a delimited list of integers into their sum, and
`StringCalculatorError.errorDescription`, the message of the one error it
throws. The model also proves properties about both.

`add` does five things:

1. It returns 0 for the empty string.
2. It recognises an optional `//<c>...\n` header. A header adds `<c>` to the
   delimiters `,` and newline, and its first line is removed.
3. It splits the rest on every delimiter.
4. It trims each piece and skips pieces that are blank or are not integers.
5. It sums the values and collects the negative ones in order. After the
   scan it throws `negativeNumbersNotAllowed` with all of them if there is
   any.

The model has five modules:

- `Text` (`text.dfy`) covers Foundation's whitespace set,
  `trimmingCharacters(in: .whitespacesAndNewlines)`,
  `components(separatedBy:)` on a character set, and `joined(separator:)`.
- `Decimal` (`decimal.dfy`) covers Swift's `Int(_: String)` and
  `String(_: Int)` on a 64-bit platform. Parsing takes an optional sign and
  one or more ASCII digits. It yields `None` outside the 64-bit range.
- `StringCalculator` (`calculator.dfy`) holds the error type, the header
  detection and the token pipeline, plus:
  - `Add`, the reference definition as a function;
  - `AddByScan`, the source's algorithm as a method with its loop, proved
    equal to `Add`;
  - `ErrorDescription`;
  - the laws that relate them.
- `NumberLists` (`lists.dfy`) holds laws about whole inputs. A list of
  rendered numbers, joined by a delimiter and padded with whitespace, is
  read back number for number. This holds for any delimiter set without
  digits or `-`, with padding that holds no delimiter. So `add` sums it, or throws the error
  listing exactly its negative numbers. Inside the body, comma, newline and
  the custom delimiter can replace one another.
- `CalculatorVectors` (`vectors.dfy`) derives each unit-test assertion
  from those laws.

`add` keeps no state between calls, and `Add` is a function, so calling it
twice on the same input gives the same outcome.

Two details of `add` shape the model:

- **Header recognition.** A header needs the input to start with `//`
  and to contain a newline, and its first line needs a third character.
  So `//\n1,2` has no header, and its `//` piece is ignored.
- **Whitespace.** Trimming uses `.whitespacesAndNewlines` as documented:
  the Unicode space separators, tab, and the newlines U+000A to U+000D,
  U+0085, U+2028 and U+2029.

## Model

| member | source | states |
|---|---|---|
| StringCalculator.Add | iOSStringCalculator/iOSStringCalculator/StringCalculator.swift:39-96 | The empty input gives 0. A returned sum is never negative. A thrown error lists at least one number, and every number it lists is negative. |
| StringCalculator.AddByScan | iOSStringCalculator/iOSStringCalculator/StringCalculator.swift:39-96 | The source's algorithm computes exactly `Add`. It has the empty guard, the in-place header handling, one split, and the loop with the throw after it. |
| StringCalculator.ScanTokens | iOSStringCalculator/iOSStringCalculator/StringCalculator.swift:67-88 | The loop's running sum is the sum of the values of the tokens that parse. Its negative list is exactly their negative values, in token order. |
| StringCalculator.ReadHeader | iOSStringCalculator/iOSStringCalculator/StringCalculator.swift:50-55 | A recognised header line has at least three characters and ends before the input does. `HeaderRecognised` states exactly when a header is recognised. |
| StringCalculator.StartsWithSlashes | iOSStringCalculator/iOSStringCalculator/StringCalculator.swift:50 | The input has at least two characters and its first two are `//`. |
| StringCalculator.Delimiters | iOSStringCalculator/iOSStringCalculator/StringCalculator.swift:46-57 | Comma and newline are always delimiters. A header's character is one too, and there are no others. |
| StringCalculator.Body | iOSStringCalculator/iOSStringCalculator/StringCalculator.swift:59 | After a header, the input is the header line, its newline, and the body. Without a header the body is the whole input. |
| StringCalculator.Tokens | iOSStringCalculator/iOSStringCalculator/StringCalculator.swift:45-65 | There is at least one piece, and no piece holds a comma or a newline. |
| StringCalculator.TokenValue | iOSStringCalculator/iOSStringCalculator/StringCalculator.swift:72-76 | A piece made of whitespace only has no value, and a value is a 64-bit integer. |
| StringCalculator.TokenValueStripsPadding | iOSStringCalculator/iOSStringCalculator/StringCalculator.swift:72-76 | A value is parsed from the piece once whitespace is stripped from both ends. `PaddedNumberToken` gives the converse for rendered numbers. |
| StringCalculator.Values | iOSStringCalculator/iOSStringCalculator/StringCalculator.swift:70-88 | There are no more values than pieces. `ValuesStep` fixes what each piece contributes, and `ValuesAppend` and `ValuesInRange` state the rest. |
| StringCalculator.ValuesStep | iOSStringCalculator/iOSStringCalculator/StringCalculator.swift:70-88 | One more piece extends the values by its own value when it has one, and leaves them unchanged when it has none. |
| StringCalculator.Sum | iOSStringCalculator/iOSStringCalculator/StringCalculator.swift:67-81 | The sum of non-negative values is non-negative. `SumAppend` states how sums combine. |
| StringCalculator.Evaluate | iOSStringCalculator/iOSStringCalculator/StringCalculator.swift:67-95 | After the scan, a sum is never negative. An error is non-empty and holds only negative numbers. |
| StringCalculator.Tally | iOSStringCalculator/iOSStringCalculator/StringCalculator.swift:91-95 | With no negative value the outcome is the sum. With any negative value it is the error carrying all the negative values, in order. |
| StringCalculator.Negatives | iOSStringCalculator/iOSStringCalculator/StringCalculator.swift:78-79 | Every collected number is negative. Nothing is collected exactly when no value is negative. |
| StringCalculator.NegativesMembership | iOSStringCalculator/iOSStringCalculator/StringCalculator.swift:78-79 | A number is collected if and only if it is a value and negative. |
| StringCalculator.HeaderRecognised | iOSStringCalculator/iOSStringCalculator/StringCalculator.swift:50-55 | A header is recognised exactly when the input starts with `//`, contains a newline, and its third character is not that newline. The delimiter is the third character, and the header line ends at the first newline. |
| StringCalculator.DefaultDelimitersWithoutHeader | iOSStringCalculator/iOSStringCalculator/StringCalculator.swift:45-65 | Without a leading `//`, the whole input is split on comma and newline only. |
| StringCalculator.CustomDelimiterHeader | iOSStringCalculator/iOSStringCalculator/StringCalculator.swift:50-65 | For `//<c><rest>\n<body>`, `c` becomes an extra delimiter and the rest of the line is ignored. Only the body is split, on comma, newline and `c`. |
| StringCalculator.MalformedHeaderIgnored | iOSStringCalculator/iOSStringCalculator/StringCalculator.swift:50-62 | A leading `//` with no newline, or with a first line that is exactly `//`, strips nothing and adds nothing. Its first piece has no value and does not change the values read. |
| StringCalculator.SlashTokenHasNoValue | iOSStringCalculator/iOSStringCalculator/StringCalculator.swift:72-76 | A piece starting with `/` never parses, so it is skipped. |
| StringCalculator.SkippedTokenIsInert | iOSStringCalculator/iOSStringCalculator/StringCalculator.swift:82-87 | Removing a piece without a value from anywhere in the token list does not change the outcome. |
| StringCalculator.EveryNegativeReported | iOSStringCalculator/iOSStringCalculator/StringCalculator.swift:78-93 | `add` throws if and only if some value read is negative. There is no short-circuit, so every negative value read is in the error. |
| StringCalculator.NegativesInEncounterOrder | iOSStringCalculator/iOSStringCalculator/StringCalculator.swift:78-79 | The error lists the negatives of earlier tokens before those of later tokens. |
| StringCalculator.ValuesAppend | iOSStringCalculator/iOSStringCalculator/StringCalculator.swift:70-88 | The values of two token lists joined are the values of the first list, then those of the second. |
| StringCalculator.SumAppend | iOSStringCalculator/iOSStringCalculator/StringCalculator.swift:81 | The sum of two lists joined is the sum of their sums. |
| StringCalculator.ValuesInRange | iOSStringCalculator/iOSStringCalculator/StringCalculator.swift:76 | Every value read is a 64-bit integer. |
| StringCalculator.ReportedInRange | iOSStringCalculator/iOSStringCalculator/StringCalculator.swift:76-79 | Every reported number is a 64-bit integer. |
| StringCalculator.Renderings | iOSStringCalculator/iOSStringCalculator/StringCalculator.swift:17 | There is one rendering per number, in order. Each rendering of a 64-bit number is canonical and parses back to that number. |
| StringCalculator.ErrorDescription | iOSStringCalculator/iOSStringCalculator/StringCalculator.swift:14-19 | The message starts with `Negative numbers not allowed: `. Something follows that prefix if and only if the error lists a number. `RenderedListSplitsExactly` and `DescriptionSeparator` fix the rest exactly. |
| StringCalculator.RenderingShape | iOSStringCalculator/iOSStringCalculator/StringCalculator.swift:17 | A decimal rendering holds no comma or newline, and trimming leaves it unchanged. |
| StringCalculator.RenderingIsToken | iOSStringCalculator/iOSStringCalculator/StringCalculator.swift:17 | A decimal rendering, read as a token, gives back the number rendered. |
| StringCalculator.PaddedNumberToken | iOSStringCalculator/iOSStringCalculator/StringCalculator.swift:72-76 | Whitespace on either side of a number does not change the value read. |
| StringCalculator.SpacedValues | iOSStringCalculator/iOSStringCalculator/StringCalculator.swift:65-72 | One space in front of a text does not change the values read from its default split. |
| StringCalculator.RenderedListParsesBack | iOSStringCalculator/iOSStringCalculator/StringCalculator.swift:17 | The message's `, `-joined list of numbers reads back, through the calculator's own split and trim, as exactly those numbers. |
| StringCalculator.RenderedListSplitsExactly | iOSStringCalculator/iOSStringCalculator/StringCalculator.swift:17 | Cut at its commas, the list is exactly the first rendering, then each later rendering with one leading space. So the separator is exactly `, `. |
| StringCalculator.DescriptionSeparator | iOSStringCalculator/iOSStringCalculator/StringCalculator.swift:17 | Joining the renderings with `, ` is joining with `,` after one space is put in front of every rendering but the first. |
| StringCalculator.DescriptionListsNumbers | iOSStringCalculator/iOSStringCalculator/StringCalculator.swift:17-18 | The message is the fixed prefix followed by a list from which every reported number can be read back, in order. |
| StringCalculator.NegativeListRejected | iOSStringCalculator/iOSStringCalculator/StringCalculator.swift:17-18 | A list of negative numbers, written as the message writes it and fed to `add`, throws the error listing exactly those numbers. |
| StringCalculator.ReportedListReproducesError | iOSStringCalculator/iOSStringCalculator/StringCalculator.swift:14-18 | Feeding the list part of any thrown error's message back to `add` throws the same error. |
| StringCalculator.NegativesOfNegatives | iOSStringCalculator/iOSStringCalculator/StringCalculator.swift:78-79 | When every value is negative, all of them are collected. |
| Decimal.ParseInt | iOSStringCalculator/iOSStringCalculator/StringCalculator.swift:76 | A parsed value is a 64-bit integer, and a negative one comes from text starting with `-`. |
| Decimal.ParseIntShape | iOSStringCalculator/iOSStringCalculator/StringCalculator.swift:76 | Only an optional sign followed by one or more ASCII digits parses. Together with `ParseInRange` and `ParseOutOfRange`, this fully characterises `Int(_:)`. |
| Decimal.IntToString | iOSStringCalculator/iOSStringCalculator/StringCalculator.swift:17 | A rendering is a minus sign exactly for negative numbers, followed by digits. |
| Decimal.ParseRendered | iOSStringCalculator/iOSStringCalculator/StringCalculator.swift:17 | Rendering then parsing gives back every 64-bit integer, and the rendering is canonical. |
| Decimal.RenderParsed | iOSStringCalculator/iOSStringCalculator/StringCalculator.swift:76 | Parsing then rendering gives back every canonical text that parses. |
| Decimal.ParseOutOfRange | iOSStringCalculator/iOSStringCalculator/StringCalculator.swift:76 | A digit run above `Int.max`, with or without `+`, does not parse. Neither does a `-` run below `Int.min`. Such a piece is skipped rather than wrapped or saturated. |
| Decimal.ParseInRange | iOSStringCalculator/iOSStringCalculator/StringCalculator.swift:76 | A digit run whose value fits in 64 bits parses to that value, with or without `+` and with any leading zeros. So does a `-` run whose negation fits. |
| Decimal.DigitsOfNat | iOSStringCalculator/iOSStringCalculator/StringCalculator.swift:17 | The shortest decimal digits of a number have that number as their value. |
| Decimal.NatOfDigits | iOSStringCalculator/iOSStringCalculator/StringCalculator.swift:76 | A digit run without leading zeros is the shortest rendering of its value. |
| Text.IsWhitespace | iOSStringCalculator/iOSStringCalculator/StringCalculator.swift:72 | Space, tab, line feed and carriage return are whitespace. No digit, sign, slash or comma is, so trimming never eats into a number or a header's slashes. |
| Text.Trim | iOSStringCalculator/iOSStringCalculator/StringCalculator.swift:72 | The trimmed text is no longer than the original. It is empty, or it starts and ends with a non-whitespace character. |
| Text.TrimStartDropsWhitespace | iOSStringCalculator/iOSStringCalculator/StringCalculator.swift:72 | Trimming the start removes a prefix, and only whitespace. |
| Text.TrimEndDropsWhitespace | iOSStringCalculator/iOSStringCalculator/StringCalculator.swift:72 | Trimming the end removes a suffix, and only whitespace. |
| Text.TrimRemovesOnlyPadding | iOSStringCalculator/iOSStringCalculator/StringCalculator.swift:72 | Every text is whitespace, then its trimmed form, then whitespace. |
| Text.TrimBlank | iOSStringCalculator/iOSStringCalculator/StringCalculator.swift:72-73 | A text trims to nothing if and only if it is all whitespace. |
| Text.TrimPadded | iOSStringCalculator/iOSStringCalculator/StringCalculator.swift:72 | Trimming whitespace-padded text that has no padding of its own gives that text back. |
| Text.TrimIdempotent | iOSStringCalculator/iOSStringCalculator/StringCalculator.swift:72 | Trimming twice is trimming once. |
| Text.SplitOn | iOSStringCalculator/iOSStringCalculator/StringCalculator.swift:65 | A split has at least one piece. The lemmas below carry its meaning. |
| Text.SplitOnPiecesUndelimited | iOSStringCalculator/iOSStringCalculator/StringCalculator.swift:65 | No piece of a split contains a delimiter. |
| Text.SplitOnUndelimited | iOSStringCalculator/iOSStringCalculator/StringCalculator.swift:65 | A text without delimiters is a single piece. |
| Text.SplitOnDelimiter | iOSStringCalculator/iOSStringCalculator/StringCalculator.swift:65 | A delimiter cuts the text into two halves that split independently. |
| Text.SplitOnInterchangeable | iOSStringCalculator/iOSStringCalculator/StringCalculator.swift:65 | Replacing one delimiter occurrence with another delimiter gives the same pieces. |
| Text.SplitOnPrefix | iOSStringCalculator/iOSStringCalculator/StringCalculator.swift:65 | A prefix without delimiters joins the first piece and leaves the others alone. |
| Text.IndexOf | iOSStringCalculator/iOSStringCalculator/StringCalculator.swift:51-53 | The result is the first position of the character, or the length when it is absent. That is the length of the first line, `parts[0]`. |
| Text.JoinWith | iOSStringCalculator/iOSStringCalculator/StringCalculator.swift:17 | Joining no pieces gives the empty text. Otherwise the join starts with the first piece. `JoinSplit` and `SplitJoin` state the rest for one-character separators, and `RenderedListSplitsExactly` does so for the message's `, `. |
| Text.JoinSplit | iOSStringCalculator/iOSStringCalculator/StringCalculator.swift:65 | Splitting on one delimiter and joining with it gives the text back. |
| Text.SplitJoin | iOSStringCalculator/iOSStringCalculator/StringCalculator.swift:17 | Joining pieces that hold no delimiter with a delimiter, then splitting, gives the pieces back. |
| NumberLists.PaddedValues | iOSStringCalculator/iOSStringCalculator/StringCalculator.swift:72-76 | Numbers rendered with whitespace padding read back as exactly those numbers. |
| NumberLists.ListValues | iOSStringCalculator/iOSStringCalculator/StringCalculator.swift:65-76 | A padded list joined by a delimiter splits and reads back as its numbers. This holds for any delimiter set that contains no digit or `-`. |
| NumberLists.AddList | iOSStringCalculator/iOSStringCalculator/StringCalculator.swift:39-96 | A padded list separated by commas or newlines gives the sum of its numbers if none is negative. Otherwise it gives the error with its negative numbers in order. |
| NumberLists.AddCustomList | iOSStringCalculator/iOSStringCalculator/StringCalculator.swift:50-96 | A `//<c>...\n` header followed by a list separated by `c` gives the same outcome, for any `c` other than newline, a digit or `-`. |
| NumberLists.DefaultDelimitersInterchangeable | iOSStringCalculator/iOSStringCalculator/StringCalculator.swift:46 | Without a header, swapping a comma for a newline or back does not change the outcome. |
| NumberLists.CustomDelimitersInterchangeable | iOSStringCalculator/iOSStringCalculator/StringCalculator.swift:57 | After a header, comma, newline and the custom delimiter can replace one another without changing the outcome. |
| CalculatorVectors.EmptyString | iOSStringCalculator/iOSStringCalculatorTests/iOSStringCalculatorTests.swift:27 | `add("")` is 0. |
| CalculatorVectors.SingleNumber | iOSStringCalculator/iOSStringCalculatorTests/iOSStringCalculatorTests.swift:32-33 | `add("1")` is 1 and `add("5")` is 5. |
| CalculatorVectors.TwoNumbers | iOSStringCalculator/iOSStringCalculatorTests/iOSStringCalculatorTests.swift:38 | `add("1,5")` is 6. |
| CalculatorVectors.ThreeNumbers | iOSStringCalculator/iOSStringCalculatorTests/iOSStringCalculatorTests.swift:43 | `add("1,2,3")` is 6. |
| CalculatorVectors.FourNumbers | iOSStringCalculator/iOSStringCalculatorTests/iOSStringCalculatorTests.swift:44 | `add("10,20,30,40")` is 100. |
| CalculatorVectors.NewlineAndComma | iOSStringCalculator/iOSStringCalculatorTests/iOSStringCalculatorTests.swift:49 | `add("1\n2,3")` is 6. |
| CalculatorVectors.NewlinesOnly | iOSStringCalculator/iOSStringCalculatorTests/iOSStringCalculatorTests.swift:50 | `add("1\n2\n3")` is 6. |
| CalculatorVectors.SemicolonHeader | iOSStringCalculator/iOSStringCalculatorTests/iOSStringCalculatorTests.swift:55 | `add("//;\n1;2")` is 3. |
| CalculatorVectors.BarHeader | iOSStringCalculator/iOSStringCalculatorTests/iOSStringCalculatorTests.swift:56 | With the vertical bar as custom delimiter, the input `//`, bar, newline, then `1`, `2`, `3` separated by bars, gives 6. |
| CalculatorVectors.DollarHeader | iOSStringCalculator/iOSStringCalculatorTests/iOSStringCalculatorTests.swift:57 | `add("//$\n1$2$3")` is 6. |
| CalculatorVectors.SingleNegative | iOSStringCalculator/iOSStringCalculatorTests/iOSStringCalculatorTests.swift:62 | `add("-1")` throws the error listing -1. |
| CalculatorVectors.SingleNegativeDescription | iOSStringCalculator/iOSStringCalculatorTests/iOSStringCalculatorTests.swift:63 | The message for [-1] is `Negative numbers not allowed: -1`. |
| CalculatorVectors.SeveralNegatives | iOSStringCalculator/iOSStringCalculatorTests/iOSStringCalculatorTests.swift:69 | `add("1,-2,3,-4")` throws the error listing -2, -4. |
| CalculatorVectors.SeveralNegativesDescription | iOSStringCalculator/iOSStringCalculatorTests/iOSStringCalculatorTests.swift:70 | The message for [-2, -4] is `Negative numbers not allowed: -2, -4`. |
| CalculatorVectors.HeaderAndNewline | iOSStringCalculator/iOSStringCalculatorTests/iOSStringCalculatorTests.swift:76 | `add("//;\n1;2\n3")` is 6. |
| CalculatorVectors.PaddedNumbers | iOSStringCalculator/iOSStringCalculatorTests/iOSStringCalculatorTests.swift:81 | `add(" 1 , 2 \n 3 ")` is 6. |
| CalculatorVectors.EmptyTokenSkipped | iOSStringCalculator/iOSStringCalculator/StringCalculator.swift:73 | `add("1,,2")` is 3, because the empty piece between the commas is skipped. |

## Left out

- The SwiftUI view (`ContentView.swift`) is left out. It only shows the result or the error message.
- The `print` warning for a piece that is not a number (StringCalculator.swift line 86) is left out. It is a diagnostic side effect and does not affect the outcome.
- StringCalculator.Add: `add` as a throwing method becomes a function returning `Ok(sum)` or `Failure(error)`. The sum is an unbounded integer. Swift's `sum += number` traps on 64-bit overflow, and that trap is not modelled. Each value read is still bounded to 64 bits, as `Int(...)` does.
- Characters are Unicode scalar values. Swift's grapheme clusters are not modelled, so `"\r\n"` is two characters here but one `Character` in Swift. This shows in `dropFirst(delimiterDefinition.count + 1)` at StringCalculator.swift line 59. For `"//;\r\n1;2"`, Swift counts `"\r\n"` once, so it also drops the body's `1`. The model keeps it and splits `"1;2"`. The `String`/`NSString` bridging behind `components(separatedBy:)` is not modelled either.
- Text.IsWhitespace: the set is `.whitespacesAndNewlines` as documented. Some CoreFoundation implementations also count U+200B ZERO WIDTH SPACE as whitespace. The model does not, so it skips a piece such as `"1\u{200B}"` that such an implementation would read as 1. That CoreFoundation source is not part of this model.
- Decimal.ParseInt: it accepts only ASCII digits with an optional sign. This matches `Int(_: String)` for radix 10. Any Foundation locale handling is outside the model.
- The XCTest test case class is not modelled. Its assertions appear as the vector lemmas above.

=== FILE: calculator.dfy ===
/**
 The String Calculator: `add` turns a delimited list of integers into their
 sum, or into a `negativeNumbersNotAllowed` error listing every negative
 number it met. An optional `//<c>\n` header adds `<c>` to the default
 delimiters `,` and newline.
 */
module StringCalculator {
  import opened Text
  import opened Decimal

  /** `StringCalculatorError`: the one error `add` throws. */
  datatype StringCalculatorError = NegativeNumbersNotAllowed(numbers: seq<int>)

  /** What `add` returns or throws. */
  datatype Outcome = Ok(sum: int) | Failure(error: StringCalculatorError)

  const DefaultDelimiters: set<char> := {',', '\n'}
  const DescriptionPrefix: string := "Negative numbers not allowed: "

  /** Whether a delimiter-definition line was recognised; `lineLength` is
      the length of that first line, without its newline. */
  datatype Header = NoHeader | CustomDelimiter(delimiter: char, lineLength: nat)

  /** `hasPrefix("//")`. */
  predicate StartsWithSlashes(s: string)
    ensures StartsWithSlashes(s) <==> |s| >= 2 && s[..2] == "//"
  {
    |s| >= 2 && s[0] == '/' && s[1] == '/'
  }

  /** Header detection: the input starts with `//` and its first line,
      which must end in a newline, has a third character. */
  function ReadHeader(numbers: string): (h: Header)
    ensures h.CustomDelimiter? ==> 3 <= h.lineLength < |numbers|
  {
    if StartsWithSlashes(numbers) then
      var lineLength := IndexOf(numbers, '\n');
      if lineLength < |numbers| && lineLength >= 3 then CustomDelimiter(numbers[2], lineLength)
      else NoHeader
    else NoHeader
  }

  /** A header is recognised exactly when the input starts with `//`, has
      a newline, and the third character is not that newline; its delimiter
      is the third character and its line ends at the first newline. */
  lemma HeaderRecognised(numbers: string)
    ensures ReadHeader(numbers).CustomDelimiter? <==>
              |numbers| >= 3 && StartsWithSlashes(numbers) && numbers[2] != '\n' && '\n' in numbers
    ensures ReadHeader(numbers).CustomDelimiter? ==>
              && ReadHeader(numbers).delimiter == numbers[2]
              && numbers[ReadHeader(numbers).lineLength] == '\n'
              && '\n' !in numbers[..ReadHeader(numbers).lineLength]
  {
    if StartsWithSlashes(numbers) {
      var k := IndexOf(numbers, '\n');
      if '\n' in numbers {
        assert numbers[..|numbers|] == numbers;
      }
      if k < |numbers| && |numbers| >= 3 && numbers[2] != '\n' {
        assert k != 0 && k != 1;
        if k == 2 {
          assert false;
        }
      }
    }
  }

  /** The delimiter set: comma and newline always, plus the header's
      character when there is one, and nothing else. */
  function Delimiters(h: Header): (ds: set<char>)
    ensures ',' in ds && '\n' in ds
    ensures h.CustomDelimiter? ==> h.delimiter in ds
    ensures forall c :: c in ds ==> c == ',' || c == '\n' || (h.CustomDelimiter? && c == h.delimiter)
  {
    if h.CustomDelimiter? then DefaultDelimiters + {h.delimiter} else DefaultDelimiters
  }

  /** The text after a recognised header line and its newline: the input
      is that line, its newline, and the body. Without a header the body is
      the whole input. */
  function Body(numbers: string, h: Header): (b: string)
    requires h.CustomDelimiter? ==> h.lineLength < |numbers|
    ensures h.CustomDelimiter? ==> numbers == numbers[..h.lineLength + 1] + b
    ensures h.NoHeader? ==> b == numbers
  {
    if h.CustomDelimiter? then numbers[h.lineLength + 1..] else numbers
  }

  /** The raw tokens `add` iterates over: at least one, and none holds a
      comma or a newline. */
  function Tokens(numbers: string): (tokens: seq<string>)
    ensures |tokens| >= 1
    ensures forall i :: 0 <= i < |tokens| ==> NoneOf(tokens[i], DefaultDelimiters)
  {
    var h := ReadHeader(numbers);
    SplitOnPiecesUndelimited(Body(numbers, h), Delimiters(h));
    SplitOn(Body(numbers, h), Delimiters(h))
  }

  /** What one raw token contributes: nothing when it trims to the empty
      string or is not an integer, its value otherwise. A blank token has
      no value, and a value is a 64-bit integer. */
  function TokenValue(token: string): (v: Option<int>)
    ensures AllWhitespace(token) ==> v == None
    ensures v.Some? ==> InInt64(v.value)
  {
    TrimBlank(token);
    var trimmed := Trim(token);
    if |trimmed| == 0 then None else ParseInt(trimmed)
  }

  /** A token's value is an integer read from the token once whitespace is
      stripped from both ends. */
  lemma TokenValueStripsPadding(token: string)
    ensures TokenValue(token).Some? ==>
              exists a, t, b :: AllWhitespace(a) && AllWhitespace(b) && Tight(t) && token == a + t + b && ParseInt(t) == TokenValue(token)
  {
    TrimRemovesOnlyPadding(token);
  }

  /** The values of the tokens that parse, in token order. */
  function Values(tokens: seq<string>): (vs: seq<int>)
    ensures |vs| <= |tokens|
    decreases |tokens|
  {
    if |tokens| == 0 then []
    else
      match TokenValue(tokens[0])
      case Some(v) => [v] + Values(tokens[1..])
      case None => Values(tokens[1..])
  }

  /** The negative values, in the order they occur. */
  function Negatives(xs: seq<int>): (ns: seq<int>)
    ensures forall i :: 0 <= i < |ns| ==> ns[i] < 0
    ensures |ns| == 0 <==> forall i :: 0 <= i < |xs| ==> xs[i] >= 0
    decreases |xs|
  {
    if |xs| == 0 then []
    else if xs[0] < 0 then [xs[0]] + Negatives(xs[1..])
    else Negatives(xs[1..])
  }

  function Sum(xs: seq<int>): (s: int)
    ensures (forall i :: 0 <= i < |xs| ==> xs[i] >= 0) ==> s >= 0
    decreases |xs|
  {
    if |xs| == 0 then 0 else xs[0] + Sum(xs[1..])
  }

  /** The scan over the tokens: every parsed value goes into the sum, and
      the error, raised only after the scan, carries all negative ones. */
  function Evaluate(tokens: seq<string>): (r: Outcome)
    ensures r.Ok? ==> r.sum >= 0
    ensures r.Failure? ==> |r.error.numbers| >= 1
    ensures r.Failure? ==> forall i :: 0 <= i < |r.error.numbers| ==> r.error.numbers[i] < 0
  {
    Tally(Values(tokens))
  }

  /** The outcome for the values read: the error listing the negative ones
      if there are any, their sum otherwise. */
  function Tally(values: seq<int>): (r: Outcome)
    ensures (forall i :: 0 <= i < |values| ==> values[i] >= 0) ==> r == Ok(Sum(values))
    ensures (exists i :: 0 <= i < |values| && values[i] < 0) ==>
              r == Failure(NegativeNumbersNotAllowed(Negatives(values)))
  {
    var negatives := Negatives(values);
    if |negatives| > 0 then Failure(NegativeNumbersNotAllowed(negatives)) else Ok(Sum(values))
  }

  /** `add`: the empty input is 0; otherwise the tokens are evaluated. A
      sum is never negative and an error never lists a non-negative number. */
  function Add(numbers: string): (r: Outcome)
    ensures |numbers| == 0 ==> r == Ok(0)
    ensures r.Ok? ==> r.sum >= 0
    ensures r.Failure? ==> |r.error.numbers| >= 1
    ensures r.Failure? ==> forall i :: 0 <= i < |r.error.numbers| ==> r.error.numbers[i] < 0
  {
    if |numbers| == 0 then Ok(0) else Evaluate(Tokens(numbers))
  }

  /** The decimal renderings of the numbers, in order. Each rendering of
      a 64-bit number is canonical and parses back to that number. */
  function Renderings(ns: seq<int>): (rs: seq<string>)
    ensures |rs| == |ns|
    ensures forall i :: 0 <= i < |ns| ==> rs[i] == IntToString(ns[i])
    ensures AllInInt64(ns) ==> forall i :: 0 <= i < |ns| ==> ParseInt(rs[i]) == Some(ns[i]) && Canonical(rs[i])
  {
    assert AllInInt64(ns) ==> forall i :: 0 <= i < |ns| ==> ParseInt(IntToString(ns[i])) == Some(ns[i]) && Canonical(IntToString(ns[i])) by {
      forall i | 0 <= i < |ns| && AllInInt64(ns)
        ensures ParseInt(IntToString(ns[i])) == Some(ns[i]) && Canonical(IntToString(ns[i]))
      {
        ParseRendered(ns[i]);
      }
    }
    seq(|ns|, i requires 0 <= i < |ns| => IntToString(ns[i]))
  }

  /** The renderings of the numbers, each preceded by one space: the pieces
      after the first one when the message's list is split at its commas. */
  function SpacedRenderings(ns: seq<int>): (ps: seq<string>)
    ensures |ps| == |ns|
    decreases |ns|
  {
    if |ns| == 0 then [] else [" " + IntToString(ns[0])] + SpacedRenderings(ns[1..])
  }

  /** `errorDescription`: the fixed prefix, then the numbers joined by `, `.
      Nothing follows the prefix exactly when no number is listed. */
  function ErrorDescription(e: StringCalculatorError): (d: string)
    ensures |d| >= |DescriptionPrefix| && d[..|DescriptionPrefix|] == DescriptionPrefix
    ensures |d| == |DescriptionPrefix| <==> |e.numbers| == 0
  {
    var list := JoinWith(Renderings(e.numbers), ", ");
    assert |e.numbers| >= 1 ==> |list| >= 1 by {
      if |e.numbers| >= 1 {
        JoinStart(Renderings(e.numbers), ", ");
      }
    }
    DescriptionPrefix + list
  }

  lemma {:induction false} ValuesAppend(a: seq<string>, b: seq<string>)
    ensures Values(a + b) == Values(a) + Values(b)
    decreases |a|
  {
    if |a| == 0 {
      assert a + b == b;
    } else {
      assert (a + b)[0] == a[0] && (a + b)[1..] == a[1..] + b;
      ValuesAppend(a[1..], b);
    }
  }

  /** The reported numbers are exactly the negative values. */
  lemma {:induction false} NegativesMembership(xs: seq<int>, x: int)
    ensures x in Negatives(xs) <==> x in xs && x < 0
    decreases |xs|
  {
    if |xs| > 0 {
      NegativesMembership(xs[1..], x);
      assert xs == [xs[0]] + xs[1..];
    }
  }

  lemma {:induction false} NegativesAppend(a: seq<int>, b: seq<int>)
    ensures Negatives(a + b) == Negatives(a) + Negatives(b)
    decreases |a|
  {
    if |a| == 0 {
      assert a + b == b;
    } else {
      assert (a + b)[0] == a[0] && (a + b)[1..] == a[1..] + b;
      NegativesAppend(a[1..], b);
    }
  }

  lemma {:induction false} SumAppend(a: seq<int>, b: seq<int>)
    ensures Sum(a + b) == Sum(a) + Sum(b)
    decreases |a|
  {
    if |a| == 0 {
      assert a + b == b;
    } else {
      assert (a + b)[0] == a[0] && (a + b)[1..] == a[1..] + b;
      SumAppend(a[1..], b);
    }
  }

  /** `add` as written: the empty-input guard, header detection, one
      split, then the scan; the error is thrown after the scan. It computes
      exactly `Add`. */
  method AddByScan(numbers: string) returns (r: Outcome)
    ensures r == Add(numbers)
  {
    if |numbers| == 0 {
      return Ok(0);
    }
    var inputString := numbers;
    var delimiters := DefaultDelimiters;
    if StartsWithSlashes(inputString) {
      var lineLength := IndexOf(inputString, '\n');
      if lineLength < |inputString| && lineLength >= 3 {
        delimiters := delimiters + {inputString[2]};
        inputString := inputString[lineLength + 1..];
      }
    }
    var numberStrings := SplitOn(inputString, delimiters);
    assert numberStrings == Tokens(numbers);
    var sum, negativeNumbers := ScanTokens(numberStrings);
    if |negativeNumbers| > 0 {
      return Failure(NegativeNumbersNotAllowed(negativeNumbers));
    }
    return Ok(sum);
  }

  /** The loop of `add`: trim each token, skip it when blank or not an
      integer, otherwise add it to the sum and remember it when negative. */
  method ScanTokens(numberStrings: seq<string>) returns (sum: int, negativeNumbers: seq<int>)
    ensures sum == Sum(Values(numberStrings))
    ensures negativeNumbers == Negatives(Values(numberStrings))
  {
    ghost var values: seq<int> := [];
    sum := 0;
    negativeNumbers := [];
    for i := 0 to |numberStrings|
      invariant values == Values(numberStrings[..i])
      invariant sum == Sum(values)
      invariant negativeNumbers == Negatives(values)
    {
      var parsed := TokenValue(numberStrings[i]);
      ScanStep(numberStrings, i, values);
      if parsed.Some? {
        var number := parsed.value;
        if number < 0 {
          negativeNumbers := negativeNumbers + [number];
        }
        sum := sum + number;
        values := values + [number];
      }
    }
    assert numberStrings[..|numberStrings|] == numberStrings;
  }

  /** One more token extends the values by its own value, if it has one. */
  lemma ValuesStep(tokens: seq<string>, i: nat)
    requires i < |tokens|
    ensures TokenValue(tokens[i]).Some? ==> Values(tokens[..i + 1]) == Values(tokens[..i]) + [TokenValue(tokens[i]).value]
    ensures TokenValue(tokens[i]).None? ==> Values(tokens[..i + 1]) == Values(tokens[..i])
  {
    assert tokens[..i + 1] == tokens[..i] + [tokens[i]];
    ValuesAppend(tokens[..i], [tokens[i]]);
    assert [tokens[i]][1..] == [];
  }

  /** One step of the scan: the next token extends the values, the sum and
      the negatives by its own value, if it has one. */
  lemma ScanStep(tokens: seq<string>, i: nat, values: seq<int>)
    requires i < |tokens| && values == Values(tokens[..i])
    ensures TokenValue(tokens[i]).None? ==> Values(tokens[..i + 1]) == values
    ensures TokenValue(tokens[i]).Some? ==>
              var v := TokenValue(tokens[i]).value;
              && Values(tokens[..i + 1]) == values + [v]
              && Sum(values + [v]) == Sum(values) + v
              && Negatives(values + [v]) == Negatives(values) + (if v < 0 then [v] else [])
  {
    ValuesStep(tokens, i);
    if TokenValue(tokens[i]).Some? {
      SumStep(values, TokenValue(tokens[i]).value);
      NegativesStep(values, TokenValue(tokens[i]).value);
    }
  }

  lemma SumStep(xs: seq<int>, x: int)
    ensures Sum(xs + [x]) == Sum(xs) + x
  {
    SumAppend(xs, [x]);
    assert [x][1..] == [];
  }

  lemma NegativesStep(xs: seq<int>, x: int)
    ensures Negatives(xs + [x]) == Negatives(xs) + (if x < 0 then [x] else [])
  {
    NegativesAppend(xs, [x]);
    assert [x][1..] == [];
  }

  /** Without a leading `//` the input is split on `,` and newline only. */
  lemma DefaultDelimitersWithoutHeader(numbers: string)
    requires !StartsWithSlashes(numbers)
    ensures Tokens(numbers) == SplitOn(numbers, {',', '\n'})
  {
  }

  /** A header `//<c>...\n` adds `c` to the delimiters, ignores the rest of
      its line, and is removed with its newline; `,` and newline still
      delimit. */
  lemma CustomDelimiterHeader(c: char, rest: string, body: string)
    requires c != '\n' && '\n' !in rest
    ensures var numbers := "//" + [c] + rest + "\n" + body;
            && ReadHeader(numbers) == CustomDelimiter(c, 3 + |rest|)
            && Tokens(numbers) == SplitOn(body, {',', '\n', c})
  {
    var numbers := "//" + [c] + rest + "\n" + body;
    var k := 3 + |rest|;
    assert StartsWithSlashes(numbers) && numbers[2] == c;
    assert numbers[k] == '\n';
    assert numbers[..k] == "//" + [c] + rest;
    assert '\n' !in numbers[..k];
    HeaderRecognised(numbers);
    assert numbers[k + 1..] == body;
    assert DefaultDelimiters + {c} == {',', '\n', c};
  }

  /** A token starting with `/` has no value: `/` is neither whitespace,
      a sign nor a digit. */
  lemma SlashTokenHasNoValue(token: string)
    requires |token| >= 1 && token[0] == '/'
    ensures TokenValue(token) == None
  {
    assert TrimStart(token) == token;
    TrimEndDropsWhitespace(token);
    TrimBlank(token);
    assert !AllWhitespace(token) by {
      assert !IsWhitespace(token[0]);
    }
    assert Trim(token)[0] == '/';
    ParseIntShape(Trim(token));
  }

  /** A leading `//` without a newline, or with a first line that is
      exactly `//`, is not a header: nothing is stripped, the default delimiters apply,
      and the first token (which starts with `//`) is silently ignored. */
  lemma MalformedHeaderIgnored(numbers: string)
    requires StartsWithSlashes(numbers)
    requires '\n' !in numbers || (|numbers| >= 3 && numbers[2] == '\n')
    ensures Tokens(numbers) == SplitOn(numbers, DefaultDelimiters)
    ensures TokenValue(Tokens(numbers)[0]) == None
    ensures Values(Tokens(numbers)) == Values(Tokens(numbers)[1..])
  {
    HeaderRecognised(numbers);
    assert ReadHeader(numbers) == NoHeader;
    var tokens := SplitOn(numbers, DefaultDelimiters);
    assert tokens[0] == [numbers[0]] + SplitOn(numbers[1..], DefaultDelimiters)[0];
    SlashTokenHasNoValue(tokens[0]);
  }

  /** A token without a value (blank or not an integer) can be removed
      without changing the outcome: it adds nothing and raises nothing. */
  lemma SkippedTokenIsInert(a: seq<string>, token: string, b: seq<string>)
    requires TokenValue(token) == None
    ensures Evaluate(a + [token] + b) == Evaluate(a + b)
  {
    assert Values([token]) == [] by {
      assert [token][1..] == [];
    }
    calc {
      Values(a + [token] + b);
    == { ValuesAppend(a + [token], b); }
      Values(a + [token]) + Values(b);
    == { ValuesAppend(a, [token]); }
      Values(a) + [] + Values(b);
    == { assert Values(a) + [] == Values(a); }
      Values(a) + Values(b);
    == { ValuesAppend(a, b); }
      Values(a + b);
    }
  }

  /** No short-circuit: every negative value among the tokens is reported,
      and the error is raised exactly when there is one. */
  lemma EveryNegativeReported(numbers: string)
    ensures Add(numbers).Failure? ==> exists v :: v in Values(Tokens(numbers)) && v < 0
    ensures (exists v :: v in Values(Tokens(numbers)) && v < 0) ==> Add(numbers).Failure?
    ensures Add(numbers).Failure? ==>
              forall v :: v in Values(Tokens(numbers)) && v < 0 ==> v in Add(numbers).error.numbers
  {
    var values := Values(Tokens(numbers));
    if |numbers| == 0 {
      assert Tokens(numbers) == [""];
      assert |Trim("")| == 0;
      assert values == [];
    } else {
      assert Add(numbers) == Evaluate(Tokens(numbers));
      forall v | v in values && v < 0
        ensures v in Negatives(values)
      {
        NegativesMembership(values, v);
      }
      if |Negatives(values)| > 0 {
        var first := Negatives(values)[0];
        assert first in Negatives(values);
        NegativesMembership(values, first);
        assert first in values && first < 0;
      } else {
        forall v | v in values
          ensures v >= 0
        {
          NegativesMembership(values, v);
        }
      }
    }
  }

  /** The reported numbers keep encounter order: the negatives of earlier
      tokens precede those of later tokens. */
  lemma NegativesInEncounterOrder(a: seq<string>, b: seq<string>)
    ensures Evaluate(a + b).Failure? ==>
              Evaluate(a + b).error.numbers == Negatives(Values(a)) + Negatives(Values(b))
  {
    ValuesAppend(a, b);
    NegativesAppend(Values(a), Values(b));
  }

  /** A rendering is made of digits and at most a leading minus sign, so it
      holds no delimiter and no whitespace at either end. */
  lemma RenderingShape(n: int)
    ensures NoneOf(IntToString(n), DefaultDelimiters)
    ensures Tight(IntToString(n))
  {
    var s := IntToString(n);
    forall i | 1 <= i < |s|
      ensures IsDigit(s[i])
    {
      assert s[i] == s[1..][i - 1];
    }
  }

  /** A rendered number is a token holding exactly that number. */
  lemma RenderingIsToken(n: int)
    requires InInt64(n)
    ensures NoneOf(IntToString(n), DefaultDelimiters)
    ensures TokenValue(IntToString(n)) == Some(n)
  {
    var s := IntToString(n);
    RenderingShape(n);
    ParseRendered(n);
    assert [] + s + [] == s;
    TrimPadded([], s, []);
  }

  /** Whitespace around a number does not change the number read. */
  lemma PaddedNumberToken(a: string, n: int, b: string)
    requires AllWhitespace(a) && AllWhitespace(b) && InInt64(n)
    ensures TokenValue(a + IntToString(n) + b) == Some(n)
  {
    RenderingShape(n);
    ParseRendered(n);
    TrimPadded(a, IntToString(n), b);
  }

  /** One space in front of a text does not change the values read from
      its default split. */
  lemma SpacedValues(list: string)
    ensures Values(SplitOn(" " + list, DefaultDelimiters)) == Values(SplitOn(list, DefaultDelimiters))
  {
    var pieces := SplitOn(list, DefaultDelimiters);
    var spaced := SplitOn(" " + list, DefaultDelimiters);
    SplitOnPrefix(" ", list, DefaultDelimiters);
    assert spaced == [" " + pieces[0]] + pieces[1..];
    assert pieces == [pieces[0]] + pieces[1..];
    TrimLeadingWhitespace(" ", pieces[0]);
    ValuesAppend([" " + pieces[0]], pieces[1..]);
    ValuesAppend([pieces[0]], pieces[1..]);
  }

  /** The list of two or more numbers is the first rendering, a comma,
      and the spaced list of the rest. */
  lemma RenderedListShape(ns: seq<int>)
    requires |ns| >= 2
    ensures JoinWith(Renderings(ns), ", ") ==
              IntToString(ns[0]) + [','] + (" " + JoinWith(Renderings(ns[1..]), ", "))
  {
    var rs := Renderings(ns);
    var tail := Renderings(ns[1..]);
    assert tail == rs[1..] by {
      forall i | 0 <= i < |tail|
        ensures tail[i] == rs[1..][i]
      {
        assert ns[1..][i] == ns[i + 1];
      }
    }
    assert JoinWith(rs, ", ") == rs[0] + ", " + JoinWith(rs[1..], ", ");
  }

  /** The message's list, cut at its commas, is exactly the first
      rendering followed by the others with their one leading space: the
      separator is `", "` and nothing else. */
  lemma {:induction false} RenderedListSplitsExactly(ns: seq<int>)
    requires |ns| >= 1
    ensures SplitOn(JoinWith(Renderings(ns), ", "), {','}) == [IntToString(ns[0])] + SpacedRenderings(ns[1..])
    decreases |ns|
  {
    var r0 := IntToString(ns[0]);
    RenderingShape(ns[0]);
    SplitOnUndelimited(r0, {','});
    if |ns| == 1 {
      assert JoinWith(Renderings(ns), ", ") == r0;
    } else {
      var tail := JoinWith(Renderings(ns[1..]), ", ");
      RenderedListShape(ns);
      SplitOnDelimiter(r0, ',', " " + tail, {','});
      RenderedListSplitsExactly(ns[1..]);
      SplitOnPrefix(" ", tail, {','});
      var rest := SplitOn(" " + tail, {','});
      assert rest == [rest[0]] + rest[1..];
      assert rest == SpacedRenderings(ns[1..]);
    }
  }

  /** The message's list is the comma-join of the first rendering and the
      space-led others: joining with `", "` is joining with `","` after a
      space is put in front of every rendering but the first. */
  lemma DescriptionSeparator(ns: seq<int>)
    requires |ns| >= 1
    ensures JoinWith(Renderings(ns), ", ") == JoinWith([IntToString(ns[0])] + SpacedRenderings(ns[1..]), ",")
  {
    RenderedListSplitsExactly(ns);
    JoinSplit(JoinWith(Renderings(ns), ", "), ',');
  }

  /** Reading a list of two or more numbers yields the first number, then
      what reading the rest of the list yields. */
  lemma RenderedListStep(ns: seq<int>)
    requires |ns| >= 2 && InInt64(ns[0])
    ensures Values(SplitOn(JoinWith(Renderings(ns), ", "), DefaultDelimiters)) ==
              [ns[0]] + Values(SplitOn(JoinWith(Renderings(ns[1..]), ", "), DefaultDelimiters))
  {
    var r0 := IntToString(ns[0]);
    var tail := JoinWith(Renderings(ns[1..]), ", ");
    RenderedListShape(ns);
    RenderingIsToken(ns[0]);
    SplitOnUndelimited(r0, DefaultDelimiters);
    SplitOnDelimiter(r0, ',', " " + tail, DefaultDelimiters);
    ValuesAppend([r0], SplitOn(" " + tail, DefaultDelimiters));
    SpacedValues(tail);
    assert Values([r0]) == [ns[0]];
  }

  /** The list part of a description splits and parses back into the
      numbers it was rendered from. */
  lemma {:induction false} RenderedListParsesBack(ns: seq<int>)
    requires AllInInt64(ns)
    ensures Values(SplitOn(JoinWith(Renderings(ns), ", "), DefaultDelimiters)) == ns
    decreases |ns|
  {
    if |ns| == 0 {
      assert |Trim("")| == 0;
    } else if |ns| == 1 {
      RenderedListSingle(ns);
    } else {
      AllInInt64Tail(ns);
      RenderedListStep(ns);
      RenderedListParsesBack(ns[1..]);
      assert [ns[0]] + ns[1..] == ns;
    }
  }

  /** A list of one number reads back as that number. */
  lemma RenderedListSingle(ns: seq<int>)
    requires |ns| == 1 && AllInInt64(ns)
    ensures Values(SplitOn(JoinWith(Renderings(ns), ", "), DefaultDelimiters)) == ns
  {
    var r := IntToString(ns[0]);
    assert JoinWith(Renderings(ns), ", ") == r;
    RenderingIsToken(ns[0]);
    SplitOnUndelimited(r, DefaultDelimiters);
    assert Values([r]) == [ns[0]];
  }


  /** The description is the fixed prefix followed by a list from which
      every reported number can be read back. */
  lemma DescriptionListsNumbers(e: StringCalculatorError)
    requires AllInInt64(e.numbers)
    ensures ErrorDescription(e)[..|DescriptionPrefix|] == DescriptionPrefix
    ensures Values(SplitOn(ErrorDescription(e)[|DescriptionPrefix|..], DefaultDelimiters)) == e.numbers
  {
    var list := JoinWith(Renderings(e.numbers), ", ");
    assert ErrorDescription(e)[|DescriptionPrefix|..] == list;
    RenderedListParsesBack(e.numbers);
  }

  /** Every parsed value is a 64-bit integer. */
  lemma {:induction false} ValuesInRange(tokens: seq<string>)
    ensures AllInInt64(Values(tokens))
    decreases |tokens|
  {
    if |tokens| > 0 {
      ValuesInRange(tokens[1..]);
    }
  }

  /** Every reported number is a 64-bit integer read from the input. */
  lemma ReportedInRange(numbers: string)
    requires Add(numbers).Failure?
    ensures AllInInt64(Add(numbers).error.numbers)
  {
    var values := Values(Tokens(numbers));
    var reported := Add(numbers).error.numbers;
    assert reported == Negatives(values);
    ValuesInRange(Tokens(numbers));
    forall i | 0 <= i < |reported|
      ensures InInt64(reported[i])
    {
      NegativesMembership(values, reported[i]);
    }
  }

  /** A list of negative numbers, rendered as in the description and fed
      to `add`, throws the error listing exactly those numbers. */
  lemma NegativeListRejected(ns: seq<int>)
    requires |ns| >= 1
    requires AllInInt64(ns) && forall i :: 0 <= i < |ns| ==> ns[i] < 0
    ensures Add(JoinWith(Renderings(ns), ", ")) == Failure(NegativeNumbersNotAllowed(ns))
  {
    var list := JoinWith(Renderings(ns), ", ");
    JoinStart(Renderings(ns), ", ");
    assert list[0] == '-';
    DefaultDelimitersWithoutHeader(list);
    RenderedListParsesBack(ns);
    assert Add(list) == Tally(ns);
    NegativesOfNegatives(ns);
  }

  /** Feeding the listed numbers of any error `add` throws back into `add`
      throws the same error again. */
  lemma ReportedListReproducesError(numbers: string)
    requires Add(numbers).Failure?
    ensures var e := Add(numbers).error;
            Add(ErrorDescription(e)[|DescriptionPrefix|..]) == Add(numbers)
  {
    var e := Add(numbers).error;
    ReportedInRange(numbers);
    assert ErrorDescription(e)[|DescriptionPrefix|..] == JoinWith(Renderings(e.numbers), ", ");
    NegativeListRejected(e.numbers);
  }

  lemma {:induction false} NegativesOfNegatives(xs: seq<int>)
    requires forall i :: 0 <= i < |xs| ==> xs[i] < 0
    ensures Negatives(xs) == xs
    decreases |xs|
  {
    if |xs| > 0 {
      NegativesOfNegatives(xs[1..]);
    }
  }
}

=== FILE: decimal.dfy ===
/**
 Decimal conversion between Swift's 64-bit `Int` and text: the failable
 initializer `Int(_: String)` (an optional sign, then one or more ASCII
 digits, and `nil` for anything else or for a value outside the 64-bit
 range) and the rendering `String(_: Int)`.
 */
module Decimal {

  datatype Option<+T> = None | Some(value: T)

  const MinInt64: int := -0x8000_0000_0000_0000
  const MaxInt64: int := 0x7FFF_FFFF_FFFF_FFFF

  /** Representable as a Swift `Int` on a 64-bit platform. */
  predicate InInt64(n: int) {
    MinInt64 <= n <= MaxInt64
  }

  /** Every number of the list is representable as a Swift `Int`. */
  predicate AllInInt64(ns: seq<int>) {
    forall i :: 0 <= i < |ns| ==> InInt64(ns[i])
  }

  /** The first number of a representable list and the rest of it are
      representable. */
  lemma AllInInt64Tail(ns: seq<int>)
    requires |ns| >= 1 && AllInInt64(ns)
    ensures InInt64(ns[0]) && AllInInt64(ns[1..])
  {
    forall i | 0 <= i < |ns[1..]|
      ensures InInt64(ns[1..][i])
    {
      assert ns[1..][i] == ns[i + 1];
    }
  }

  predicate IsDigit(c: char) {
    '0' <= c <= '9'
  }

  predicate AllDigits(s: string) {
    forall i :: 0 <= i < |s| ==> IsDigit(s[i])
  }

  function DigitValue(c: char): nat
    requires IsDigit(c)
  {
    (c as int) - ('0' as int)
  }

  function DigitChar(d: nat): (c: char)
    requires d < 10
    ensures IsDigit(c) && DigitValue(c) == d
  {
    (('0' as int) + d) as char
  }

  /** The value of a run of decimal digits, most significant first. */
  function DigitsValue(ds: string): nat
    requires AllDigits(ds)
    decreases |ds|
  {
    if |ds| == 0 then 0 else 10 * DigitsValue(ds[..|ds| - 1]) + DigitValue(ds[|ds| - 1])
  }

  /** A digit run without superfluous leading zeros. */
  predicate NoLeadingZero(ds: string) {
    |ds| == 1 || (|ds| > 1 && ds[0] != '0')
  }

  /** The shortest decimal rendering of `n`. */
  function NatToDigits(n: nat): (ds: string)
    ensures AllDigits(ds) && NoLeadingZero(ds)
    ensures ds[0] == '0' <==> n == 0
    decreases n
  {
    if n < 10 then [DigitChar(n)] else NatToDigits(n / 10) + [DigitChar(n % 10)]
  }

  /** `Int(_: String)`: an optional `-` or `+` followed by at least one
      ASCII digit, whose value fits in 64 bits; `None` otherwise. */
  function ParseInt(s: string): (r: Option<int>)
    ensures r.Some? ==> InInt64(r.value)
    ensures r.Some? && r.value < 0 ==> |s| >= 1 && s[0] == '-'
  {
    if |s| == 0 then None
    else
      var digits := if s[0] == '-' || s[0] == '+' then s[1..] else s;
      if |digits| == 0 || !AllDigits(digits) then None
      else
        var v: int := if s[0] == '-' then -(DigitsValue(digits) as int) else DigitsValue(digits);
        if InInt64(v) then Some(v) else None
  }

  /** Only an optional sign followed by digits parses. */
  lemma ParseIntShape(s: string)
    ensures ParseInt(s).Some? ==>
              |s| >= 1 && AllDigits(s[1..]) && (IsDigit(s[0]) || (|s| >= 2 && (s[0] == '-' || s[0] == '+')))
  {
    if ParseInt(s).Some? && !(s[0] == '-' || s[0] == '+') {
      assert s[1..] == s[..][1..];
    }
  }

  /** `String(_: Int)`: a minus sign for negative values, then the shortest
      digit run of the magnitude. */
  function IntToString(n: int): (s: string)
    ensures |s| >= 1 && AllDigits(s[1..])
    ensures s[0] == '-' <==> n < 0
    ensures n >= 0 ==> IsDigit(s[0])
  {
    if n < 0 then "-" + NatToDigits(-n) else NatToDigits(n)
  }

  /** The texts `IntToString` produces: no `+`, no leading zeros, no `-0`. */
  predicate Canonical(s: string) {
    if |s| >= 1 && s[0] == '-' then
      AllDigits(s[1..]) && NoLeadingZero(s[1..]) && s[1] != '0'
    else
      AllDigits(s) && NoLeadingZero(s)
  }

  lemma {:induction false} DigitsOfNat(n: nat)
    ensures DigitsValue(NatToDigits(n)) == n
    decreases n
  {
    var ds := NatToDigits(n);
    if n >= 10 {
      DigitsOfNat(n / 10);
      assert ds[..|ds| - 1] == NatToDigits(n / 10);
    }
  }

  lemma {:induction false} DigitsValuePositive(ds: string)
    requires AllDigits(ds) && |ds| >= 1 && ds[0] != '0'
    ensures DigitsValue(ds) >= 1
    ensures |ds| >= 2 ==> DigitsValue(ds) >= 10
    decreases |ds|
  {
    if |ds| >= 2 {
      var init := ds[..|ds| - 1];
      assert init[0] == ds[0];
      DigitsValuePositive(init);
    }
  }

  lemma {:induction false} NatOfDigits(ds: string)
    requires AllDigits(ds) && NoLeadingZero(ds)
    ensures NatToDigits(DigitsValue(ds)) == ds
    decreases |ds|
  {
    var init := ds[..|ds| - 1];
    var last := ds[|ds| - 1];
    if |ds| == 1 {
      assert DigitChar(DigitValue(last)) == last;
    } else {
      assert init[0] == ds[0];
      DigitsValuePositive(ds);
      NatOfDigits(init);
      assert DigitChar(DigitValue(last)) == last;
      assert init + [last] == ds;
    }
  }

  /** Rendering then parsing gives every 64-bit value back, and the
      rendering is canonical. */
  lemma ParseRendered(n: int)
    requires InInt64(n)
    ensures ParseInt(IntToString(n)) == Some(n)
    ensures Canonical(IntToString(n))
  {
    if n < 0 {
      ParseRenderedNegative(n);
    } else {
      DigitsOfNat(n);
    }
  }

  lemma ParseRenderedNegative(n: int)
    requires InInt64(n) && n < 0
    ensures ParseInt(IntToString(n)) == Some(n)
    ensures Canonical(IntToString(n))
  {
    var s := IntToString(n);
    var ds := NatToDigits(-n);
    assert s[1..] == ds;
    DigitsOfNat(-n);
    assert s[1] == ds[0] != '0';
  }

  /** Parsing then rendering gives every canonical text back. */
  lemma RenderParsed(s: string)
    requires Canonical(s) && ParseInt(s).Some?
    ensures IntToString(ParseInt(s).value) == s
  {
    if s[0] == '-' {
      RenderParsedNegative(s);
    } else {
      NatOfDigits(s);
    }
  }

  lemma RenderParsedNegative(s: string)
    requires Canonical(s) && ParseInt(s).Some? && s[0] == '-'
    ensures IntToString(ParseInt(s).value) == s
  {
    var ds := s[1..];
    NatOfDigits(ds);
    DigitsValuePositive(ds);
    assert ParseInt(s).value == -(DigitsValue(ds) as int);
    assert s == "-" + ds;
  }

  /** A digit run whose value exceeds `Int.max` does not parse, with or
      without `+`, and a `-` run whose value is below `Int.min` does not
      parse either: the token is rejected rather than wrapped or saturated. */
  lemma ParseOutOfRange(ds: string)
    requires AllDigits(ds) && |ds| >= 1
    ensures DigitsValue(ds) > MaxInt64 ==> ParseInt(ds) == None && ParseInt("+" + ds) == None
    ensures DigitsValue(ds) > -MinInt64 ==> ParseInt("-" + ds) == None
  {
    assert ("+" + ds)[1..] == ds;
    assert ("-" + ds)[1..] == ds;
  }

  /** The twin of `ParseOutOfRange`: a digit run whose value fits, with or
      without `+`, parses to that value, leading zeros included, and so
      does a `-` run whose negation fits. */
  lemma ParseInRange(ds: string)
    requires AllDigits(ds) && |ds| >= 1
    ensures DigitsValue(ds) <= MaxInt64 ==>
              ParseInt(ds) == Some(DigitsValue(ds)) && ParseInt("+" + ds) == Some(DigitsValue(ds))
    ensures DigitsValue(ds) <= -MinInt64 ==> ParseInt("-" + ds) == Some(-(DigitsValue(ds) as int))
  {
    assert ("+" + ds)[1..] == ds;
    assert ("-" + ds)[1..] == ds;
  }
}

=== FILE: lists.dfy ===
/**
 Laws about whole inputs: a list of rendered numbers, joined by delimiters
 and optionally padded with whitespace, is read back number for number, so
 `add` sums it or reports its negative members. These laws generalise the
 behaviours the calculator's unit tests check one input at a time.
 */
module NumberLists {
  import opened Text
  import opened Decimal
  import opened StringCalculator

  /** No delimiter can occur inside a rendered number. */
  predicate SparesNumerals(delimiters: set<char>) {
    forall c :: c in delimiters ==> !IsDigit(c) && c != '-'
  }

  /** Each number rendered with the padding `a` before it and `b` after it. */
  function PaddedRenderings(ns: seq<int>, a: string, b: string): (ps: seq<string>)
    ensures |ps| == |ns|
    decreases |ns|
  {
    if |ns| == 0 then [] else [a + IntToString(ns[0]) + b] + PaddedRenderings(ns[1..], a, b)
  }

  lemma {:induction false} PaddedRenderingAt(ns: seq<int>, a: string, b: string)
    ensures forall i :: 0 <= i < |ns| ==> PaddedRenderings(ns, a, b)[i] == a + IntToString(ns[i]) + b
    decreases |ns|
  {
    if |ns| > 0 {
      PaddedRenderingAt(ns[1..], a, b);
    }
  }

  /** Padding that is whitespace but holds no delimiter. */
  predicate Padding(a: string, delimiters: set<char>) {
    AllWhitespace(a) && NoneOf(a, delimiters)
  }

  /** The list `a n0 b d a n1 b d ...` of padded renderings. */
  function List(ns: seq<int>, d: char, a: string, b: string): string {
    JoinWith(PaddedRenderings(ns, a, b), [d])
  }

  lemma RenderingAvoids(n: int, delimiters: set<char>)
    requires SparesNumerals(delimiters)
    ensures NoneOf(IntToString(n), delimiters)
  {
    var s := IntToString(n);
    forall i | 0 <= i < |s|
      ensures s[i] !in delimiters
    {
      if i >= 1 {
        assert s[i] == s[1..][i - 1];
      }
    }
  }

  /** Every padded rendering reads as its own number. */
  lemma {:induction false} PaddedValues(ns: seq<int>, a: string, b: string)
    requires AllInInt64(ns) && AllWhitespace(a) && AllWhitespace(b)
    ensures Values(PaddedRenderings(ns, a, b)) == ns
    decreases |ns|
  {
    if |ns| > 0 {
      var ps := PaddedRenderings(ns, a, b);
      var rest := PaddedRenderings(ns[1..], a, b);
      assert ps == [a + IntToString(ns[0]) + b] + rest;
      assert ps[0] == a + IntToString(ns[0]) + b && ps[1..] == rest;
      PaddedNumberToken(a, ns[0], b);
      assert Values(ps) == [ns[0]] + Values(rest);
      assert AllInInt64(ns[1..]) by {
        forall i | 0 <= i < |ns| - 1
          ensures InInt64(ns[1..][i])
        {
          assert ns[1..][i] == ns[i + 1];
        }
      }
      PaddedValues(ns[1..], a, b);
      assert [ns[0]] + ns[1..] == ns;
    }
  }

  /** Splitting a list on delimiters that spare numerals and padding yields
      the padded renderings, whose values are the numbers. */
  lemma ListValues(ns: seq<int>, d: char, a: string, b: string, delimiters: set<char>)
    requires AllInInt64(ns) && d in delimiters && SparesNumerals(delimiters)
    requires Padding(a, delimiters) && Padding(b, delimiters)
    ensures Values(SplitOn(List(ns, d, a, b), delimiters)) == ns
  {
    var ps := PaddedRenderings(ns, a, b);
    if |ns| == 0 {
      assert |Trim("")| == 0;
    } else {
      PaddedRenderingAt(ns, a, b);
      forall i | 0 <= i < |ps|
        ensures NoneOf(ps[i], delimiters)
      {
        RenderingAvoids(ns[i], delimiters);
      }
      SplitJoin(ps, d, delimiters);
      PaddedValues(ns, a, b);
    }
  }

  lemma DefaultsSpareNumerals()
    ensures SparesNumerals(DefaultDelimiters)
  {
  }

  /** A list separated by commas or newlines adds up to the sum of its
      numbers, or throws the error listing its negative numbers in order. */
  lemma AddList(ns: seq<int>, d: char, a: string, b: string)
    requires AllInInt64(ns) && d in DefaultDelimiters
    requires Padding(a, DefaultDelimiters) && Padding(b, DefaultDelimiters)
    ensures Add(List(ns, d, a, b)) == Tally(ns)
  {
    var list := List(ns, d, a, b);
    if |ns| == 0 {
      assert Tally(ns) == Ok(0);
    } else {
      var first := a + IntToString(ns[0]) + b;
      JoinStart(PaddedRenderings(ns, a, b), [d]);
      assert first[0] != '/' by {
        if |a| > 0 {
          assert IsWhitespace(a[0]);
        } else {
          assert first[0] == IntToString(ns[0])[0];
        }
      }
      DefaultDelimitersWithoutHeader(list);
      DefaultsSpareNumerals();
      ListValues(ns, d, a, b, DefaultDelimiters);
    }
  }

  /** A header `//<c>...\n` followed by a list separated by `c` adds up the
      same way, for any delimiter that cannot occur in a number. */
  lemma AddCustomList(c: char, rest: string, ns: seq<int>, a: string, b: string)
    requires c != '\n' && '\n' !in rest && !IsDigit(c) && c != '-'
    requires AllInInt64(ns)
    requires Padding(a, {',', '\n', c}) && Padding(b, {',', '\n', c})
    ensures Add("//" + [c] + rest + "\n" + List(ns, c, a, b)) == Tally(ns)
  {
    var body := List(ns, c, a, b);
    CustomDelimiterHeader(c, rest, body);
    ListValues(ns, c, a, b, {',', '\n', c});
  }

  /** Outside a header, a comma and a newline are interchangeable. */
  lemma DefaultDelimitersInterchangeable(numbers: string, i: nat, d: char)
    requires !StartsWithSlashes(numbers)
    requires i < |numbers| && numbers[i] in DefaultDelimiters && d in DefaultDelimiters
    ensures Add(numbers[i := d]) == Add(numbers)
  {
    DefaultDelimitersWithoutHeader(numbers);
    DefaultDelimitersWithoutHeader(numbers[i := d]);
    SplitOnInterchangeable(numbers, i, d, DefaultDelimiters);
  }

  /** After a header `//<c>...\n`, a comma, a newline and `c` are
      interchangeable. */
  lemma CustomDelimitersInterchangeable(c: char, rest: string, body: string, i: nat, d: char)
    requires c != '\n' && '\n' !in rest
    requires i < |body| && body[i] in {',', '\n', c} && d in {',', '\n', c}
    ensures Add("//" + [c] + rest + "\n" + body[i := d]) == Add("//" + [c] + rest + "\n" + body)
  {
    CustomDelimiterHeader(c, rest, body);
    CustomDelimiterHeader(c, rest, body[i := d]);
    SplitOnInterchangeable(body, i, d, {',', '\n', c});
  }
}

=== FILE: text.dfy ===
/**
 The string operations the calculator is built from: Foundation's
 whitespace set, trimming, splitting on a set of delimiter characters and
 joining with a separator. Strings are sequences of Unicode scalar values.
 */
module Text {

  /** Membership in `.whitespacesAndNewlines` as documented: the Unicode
      space separators (category Zs), CHARACTER TABULATION, and the newlines
      U+000A..U+000D, U+0085, U+2028 and U+2029. */
  const WhitespaceCodes: set<int> := {0x09, 0x0A, 0x0B, 0x0C, 0x0D, 0x20, 0x85, 0xA0, 0x1680, 0x2000, 0x2001, 0x2002, 0x2003, 0x2004, 0x2005, 0x2006, 0x2007, 0x2008, 0x2009, 0x200A, 0x2028, 0x2029, 0x202F, 0x205F, 0x3000}

  /** Space, tab, line feed and carriage return are whitespace; no digit,
      sign, slash or comma is, so trimming never eats into a number or a
      header's slashes. */
  predicate IsWhitespace(c: char)
    ensures c == ' ' || c == '\t' || c == '\n' || c == '\r' ==> IsWhitespace(c)
    ensures IsWhitespace(c) ==> c !in "0123456789+-/,"
  {
    c as int in WhitespaceCodes
  }

  predicate AllWhitespace(s: string) {
    forall i :: 0 <= i < |s| ==> IsWhitespace(s[i])
  }

  /** A string that trimming leaves alone: empty, or starting and ending
      with a non-whitespace character. */
  predicate Tight(s: string) {
    |s| == 0 || (!IsWhitespace(s[0]) && !IsWhitespace(s[|s| - 1]))
  }

  /** Drops the leading whitespace. */
  function TrimStart(s: string): (r: string)
    ensures |r| <= |s|
    ensures |r| == 0 || !IsWhitespace(r[0])
    decreases |s|
  {
    if |s| > 0 && IsWhitespace(s[0]) then TrimStart(s[1..]) else s
  }

  /** Drops the trailing whitespace. */
  function TrimEnd(s: string): (r: string)
    ensures |r| <= |s|
    ensures |r| == 0 || (r[0] == s[0] && !IsWhitespace(r[|r| - 1]))
    decreases |s|
  {
    if |s| > 0 && IsWhitespace(s[|s| - 1]) then TrimEnd(s[..|s| - 1]) else s
  }

  /** `trimmingCharacters(in: .whitespacesAndNewlines)`: the result is a
      tight part of the string. */
  function Trim(s: string): (r: string)
    ensures Tight(r) && |r| <= |s|
  {
    TrimEnd(TrimStart(s))
  }

  /** `TrimStart` keeps a suffix and drops only whitespace before it. */
  lemma {:induction false} TrimStartDropsWhitespace(s: string)
    ensures TrimStart(s) == s[|s| - |TrimStart(s)|..]
    ensures AllWhitespace(s[..|s| - |TrimStart(s)|])
    decreases |s|
  {
    if |s| > 0 && IsWhitespace(s[0]) {
      TrimStartDropsWhitespace(s[1..]);
      var k := |s| - |TrimStart(s)|;
      assert s[1..][k - 1..] == s[k..];
      assert s[..k] == [s[0]] + s[1..][..k - 1];
    }
  }

  /** `TrimEnd` keeps a prefix and drops only whitespace after it. */
  lemma {:induction false} TrimEndDropsWhitespace(s: string)
    ensures TrimEnd(s) == s[..|TrimEnd(s)|]
    ensures AllWhitespace(s[|TrimEnd(s)|..])
    decreases |s|
  {
    if |s| > 0 && IsWhitespace(s[|s| - 1]) {
      var init := s[..|s| - 1];
      TrimEndDropsWhitespace(init);
      var k := |TrimEnd(s)|;
      assert init[..k] == s[..k];
      assert s[k..] == init[k..] + [s[|s| - 1]];
    }
  }

  lemma AllWhitespaceConcat(a: string, b: string)
    requires AllWhitespace(a) && AllWhitespace(b)
    ensures AllWhitespace(a + b)
  {
    forall i | 0 <= i < |a + b|
      ensures IsWhitespace((a + b)[i])
    {
      if i < |a| {
        assert (a + b)[i] == a[i];
      } else {
        assert (a + b)[i] == b[i - |a|];
      }
    }
  }

  /** Trimming removes whitespace padding and nothing else. */
  lemma TrimRemovesOnlyPadding(s: string)
    ensures exists a, b :: AllWhitespace(a) && AllWhitespace(b) && s == a + Trim(s) + b
  {
    var u := TrimStart(s);
    var r := TrimEnd(u);
    TrimStartDropsWhitespace(s);
    TrimEndDropsWhitespace(u);
    var a := s[..|s| - |u|];
    var b := u[|r|..];
    assert s == a + r + b;
  }

  /** A string trims to nothing exactly when it is all whitespace. */
  lemma TrimBlank(s: string)
    ensures |Trim(s)| == 0 <==> AllWhitespace(s)
  {
    var u := TrimStart(s);
    var r := TrimEnd(u);
    TrimStartDropsWhitespace(s);
    TrimEndDropsWhitespace(u);
    var a := s[..|s| - |u|];
    if |r| == 0 {
      assert s == a + u[|r|..];
      AllWhitespaceConcat(a, u[|r|..]);
    } else {
      assert r[0] == s[|a|];
    }
  }

  lemma {:induction false} TrimStartSkipsWhitespace(a: string, u: string)
    requires AllWhitespace(a)
    ensures TrimStart(a + u) == TrimStart(u)
    decreases |a|
  {
    if |a| > 0 {
      assert (a + u)[1..] == a[1..] + u;
      TrimStartSkipsWhitespace(a[1..], u);
    } else {
      assert a + u == u;
    }
  }

  lemma {:induction false} TrimEndSkipsWhitespace(u: string, b: string)
    requires AllWhitespace(b)
    ensures TrimEnd(u + b) == TrimEnd(u)
    decreases |b|
  {
    if |b| > 0 {
      assert (u + b)[..|u + b| - 1] == u + b[..|b| - 1];
      TrimEndSkipsWhitespace(u, b[..|b| - 1]);
    } else {
      assert u + b == u;
    }
  }

  /** Trimming is exactly the removal of whitespace padding: a tight string
      padded on both sides with whitespace trims back to itself. Together
      with `Trim`'s contract this pins the trimmed string down uniquely. */
  lemma TrimPadded(a: string, t: string, b: string)
    requires AllWhitespace(a) && AllWhitespace(b) && Tight(t)
    ensures Trim(a + t + b) == t
  {
    assert a + t + b == a + (t + b);
    TrimStartSkipsWhitespace(a, t + b);
    if |t| == 0 {
      assert t + b == b;
      TrimStartSkipsWhitespace(b, []);
      assert b + [] == b;
    } else {
      TrimEndSkipsWhitespace(t, b);
    }
  }

  /** Leading whitespace never changes what trimming yields. */
  lemma TrimLeadingWhitespace(a: string, s: string)
    requires AllWhitespace(a)
    ensures Trim(a + s) == Trim(s)
  {
    TrimStartSkipsWhitespace(a, s);
  }

  /** Trimming twice is trimming once. */
  lemma TrimIdempotent(s: string)
    ensures Trim(Trim(s)) == Trim(s)
  {
    var t := Trim(s);
    assert [] + t + [] == t;
    TrimPadded([], t, []);
  }

  /** No character of `s` is a delimiter. */
  predicate NoneOf(s: string, delimiters: set<char>) {
    forall i :: 0 <= i < |s| ==> s[i] !in delimiters
  }

  /** `components(separatedBy: CharacterSet)`: the maximal runs of
      non-delimiter characters, one more piece than there are delimiter
      occurrences, empty pieces included. */
  function SplitOn(s: string, delimiters: set<char>): (pieces: seq<string>)
    ensures |pieces| >= 1
    decreases |s|
  {
    if |s| == 0 then [""]
    else
      var rest := SplitOn(s[1..], delimiters);
      if s[0] in delimiters then [""] + rest
      else [[s[0]] + rest[0]] + rest[1..]
  }

  /** No piece holds a delimiter. */
  lemma {:induction false} SplitOnPiecesUndelimited(s: string, delimiters: set<char>)
    ensures forall i :: 0 <= i < |SplitOn(s, delimiters)| ==> NoneOf(SplitOn(s, delimiters)[i], delimiters)
    decreases |s|
  {
    if |s| > 0 {
      SplitOnPiecesUndelimited(s[1..], delimiters);
    }
  }

  /** A string without delimiters is a single piece. */
  lemma {:induction false} SplitOnUndelimited(s: string, delimiters: set<char>)
    requires NoneOf(s, delimiters)
    ensures SplitOn(s, delimiters) == [s]
    decreases |s|
  {
    if |s| > 0 {
      SplitOnUndelimited(s[1..], delimiters);
      assert [s[0]] + s[1..] == s;
    }
  }

  /** A delimiter occurrence cuts the string in two independent halves. */
  lemma {:induction false} SplitOnDelimiter(a: string, d: char, b: string, delimiters: set<char>)
    requires d in delimiters
    ensures SplitOn(a + [d] + b, delimiters) == SplitOn(a, delimiters) + SplitOn(b, delimiters)
    decreases |a|
  {
    var s := a + [d] + b;
    if |a| == 0 {
      assert s[1..] == b;
    } else {
      assert s[0] == a[0];
      assert s[1..] == a[1..] + [d] + b;
      SplitOnDelimiter(a[1..], d, b, delimiters);
    }
  }

  /** Any delimiter may stand in for any other: replacing one delimiter
      occurrence by another delimiter gives the same pieces. */
  lemma SplitOnInterchangeable(s: string, i: nat, d: char, delimiters: set<char>)
    requires i < |s| && s[i] in delimiters && d in delimiters
    ensures SplitOn(s[i := d], delimiters) == SplitOn(s, delimiters)
  {
    assert s == s[..i] + [s[i]] + s[i + 1..];
    assert s[i := d] == s[..i] + [d] + s[i + 1..];
    SplitOnDelimiter(s[..i], s[i], s[i + 1..], delimiters);
    SplitOnDelimiter(s[..i], d, s[i + 1..], delimiters);
  }

  /** A delimiter-free prefix becomes part of the first piece. */
  lemma {:induction false} SplitOnPrefix(p: string, s: string, delimiters: set<char>)
    requires NoneOf(p, delimiters)
    ensures SplitOn(p + s, delimiters)[0] == p + SplitOn(s, delimiters)[0]
    ensures SplitOn(p + s, delimiters)[1..] == SplitOn(s, delimiters)[1..]
    decreases |p|
  {
    if |p| > 0 {
      assert (p + s)[0] == p[0] && (p + s)[1..] == p[1..] + s;
      SplitOnPrefix(p[1..], s, delimiters);
      assert [p[0]] + (p[1..] + SplitOn(s, delimiters)[0]) == p + SplitOn(s, delimiters)[0];
    } else {
      assert p + s == s;
    }
  }

  /** The position of the first `c` in `s`, or `|s|` when there is none:
      the length of the first piece of `components(separatedBy: [c])`. */
  function IndexOf(s: string, c: char): (k: nat)
    ensures k <= |s|
    ensures c !in s[..k]
    ensures k < |s| ==> s[k] == c
    decreases |s|
  {
    if |s| == 0 then 0
    else if s[0] == c then 0
    else
      var k := 1 + IndexOf(s[1..], c);
      assert s[..k] == [s[0]] + s[1..][..k - 1];
      k
  }

  /** The pieces separated by `sep`: nothing for no pieces, and otherwise
      the first piece comes first. */
  function JoinWith(pieces: seq<string>, sep: string): (s: string)
    ensures |pieces| == 0 ==> s == ""
    ensures |pieces| >= 1 ==> |s| >= |pieces[0]| && s[..|pieces[0]|] == pieces[0]
    decreases |pieces|
  {
    if |pieces| == 0 then ""
    else if |pieces| == 1 then pieces[0]
    else pieces[0] + sep + JoinWith(pieces[1..], sep)
  }

  /** A join starts with the first piece. */
  lemma JoinStart(pieces: seq<string>, sep: string)
    requires |pieces| >= 1 && |pieces[0]| >= 1
    ensures |JoinWith(pieces, sep)| >= 1 && JoinWith(pieces, sep)[0] == pieces[0][0]
  {
    if |pieces| >= 2 {
      assert JoinWith(pieces, sep) == pieces[0] + (sep + JoinWith(pieces[1..], sep));
    }
  }

  /** Splitting on a single delimiter and joining with it gives the string
      back. */
  lemma {:induction false} JoinSplit(s: string, d: char)
    ensures JoinWith(SplitOn(s, {d}), [d]) == s
    decreases |s|
  {
    if |s| > 0 {
      var rest := SplitOn(s[1..], {d});
      JoinSplit(s[1..], d);
      if s[0] == d {
        assert s == [d] + s[1..];
      } else {
        var p := SplitOn(s, {d});
        assert p[1..] == rest[1..];
        if |rest| == 1 {
          assert s == [s[0]] + rest[0];
        } else {
          assert s == [s[0]] + (rest[0] + [d] + JoinWith(rest[1..], [d]));
        }
      }
    }
  }

  /** Joining delimiter-free pieces with one delimiter and splitting again
      gives the pieces back. */
  lemma {:induction false} SplitJoin(pieces: seq<string>, d: char, delimiters: set<char>)
    requires |pieces| >= 1
    requires d in delimiters
    requires forall i :: 0 <= i < |pieces| ==> NoneOf(pieces[i], delimiters)
    ensures SplitOn(JoinWith(pieces, [d]), delimiters) == pieces
    decreases |pieces|
  {
    if |pieces| == 1 {
      SplitOnUndelimited(pieces[0], delimiters);
    } else {
      SplitJoin(pieces[1..], d, delimiters);
      SplitOnDelimiter(pieces[0], d, JoinWith(pieces[1..], [d]), delimiters);
      SplitOnUndelimited(pieces[0], delimiters);
      assert [pieces[0]] + pieces[1..] == pieces;
    }
  }
}

=== FILE: vectors.dfy ===
/**
 The calculator's unit-test inputs, each derived from the laws about whole
 lists. Small lemmas only compute: that a literal input is a rendered list,
 and what that list tallies to; the list laws then give the outcome.
 */
module CalculatorVectors {
  import opened Text
  import opened Decimal
  import opened StringCalculator
  import opened NumberLists

  // Computations on literals, kept apart so that each stays small.

  lemma ListOne() ensures List([1], ',', "", "") == "1" && Tally([1]) == Ok(1) {}
  lemma ListFive() ensures List([5], ',', "", "") == "5" && Tally([5]) == Ok(5) {}
  lemma ListOneFive() ensures List([1, 5], ',', "", "") == "1,5" && Tally([1, 5]) == Ok(6) {}
  lemma ListOneTwoThree() ensures List([1, 2, 3], ',', "", "") == "1,2,3" {}
  lemma ListOneTwoThreeNewlines() ensures List([1, 2, 3], '\n', "", "") == "1\n2\n3" {}
  lemma ListTens() ensures List([10, 20, 30, 40], ',', "", "") == "10,20,30,40" {}
  lemma ListSpaced() ensures List([1, 2, 3], ',', " ", " ") == " 1 , 2 , 3 " {}
  lemma ListMinusOne() ensures List([-1], ',', "", "") == "-1" {}
  lemma ListMixedSigns() ensures List([1, -2, 3, -4], ',', "", "") == "1,-2,3,-4" {}
  lemma HeaderSemicolon() ensures "//" + [';'] + "" + "\n" + List([1, 2], ';', "", "") == "//;\n1;2" {}
  lemma HeaderBar() ensures "//" + ['|'] + "" + "\n" + List([1, 2, 3], '|', "", "") == "//|\n1|2|3" {}
  lemma HeaderDollar() ensures "//" + ['$'] + "" + "\n" + List([1, 2, 3], '$', "", "") == "//$\n1$2$3" {}
  lemma HeaderSemicolonThree() ensures "//" + [';'] + "" + "\n" + List([1, 2, 3], ';', "", "") == "//;\n1;2;3" {}

  lemma NewlineForComma()
    ensures !StartsWithSlashes("1,2,3") && "1,2,3"[1] == ','
    ensures "1,2,3"[1 := '\n'] == "1\n2,3"
  {
  }

  lemma NewlineForSpacedComma()
    ensures !StartsWithSlashes(" 1 , 2 , 3 ") && |" 1 , 2 , 3 "| == 11 && " 1 , 2 , 3 "[7] == ','
    ensures " 1 , 2 , 3 "[7 := '\n'] == " 1 , 2 \n 3 "
  {
  }

  lemma HeaderNewlineBody()
    ensures |"1;2;3"| == 5 && "1;2;3"[3] == ';'
    ensures "//" + [';'] + "" + "\n" + "1;2;3"[3 := '\n'] == "//;\n1;2\n3"
  {
  }

  lemma HeaderBody() ensures "//" + [';'] + "" + "\n" + "1;2;3" == "//;\n1;2;3" {}

  lemma SplitDoubleComma()
    ensures SplitOn("1,,2", DefaultDelimiters) == ["1", "", "2"]
  {
    SplitOnDelimiter("1", ',', ",2", DefaultDelimiters);
    SplitOnDelimiter("", ',', "2", DefaultDelimiters);
    SplitOnUndelimited("1", DefaultDelimiters);
    SplitOnUndelimited("2", DefaultDelimiters);
    assert "1" + [','] + ",2" == "1,,2";
    assert "" + [','] + "2" == ",2";
  }

  lemma TallyOneToThree() ensures Tally([1, 2]) == Ok(3) && Tally([1, 2, 3]) == Ok(6) {}
  lemma TallyTens() ensures Tally([10, 20, 30, 40]) == Ok(100) {}
  lemma TallyMinusOne() ensures Tally([-1]) == Failure(NegativeNumbersNotAllowed([-1])) {}
  lemma TallyMixedSigns() ensures Tally([1, -2, 3, -4]) == Failure(NegativeNumbersNotAllowed([-2, -4])) {}

  // The unit-test vectors.

  lemma EmptyString()
    ensures Add("") == Ok(0)
  {
    AddList([], ',', "", "");
  }

  lemma SingleNumber()
    ensures Add("1") == Ok(1)
    ensures Add("5") == Ok(5)
  {
    AddList([1], ',', "", "");
    ListOne();
    AddList([5], ',', "", "");
    ListFive();
  }

  lemma TwoNumbers()
    ensures Add("1,5") == Ok(6)
  {
    AddList([1, 5], ',', "", "");
    ListOneFive();
  }

  lemma ThreeNumbers()
    ensures Add("1,2,3") == Ok(6)
  {
    AddList([1, 2, 3], ',', "", "");
    ListOneTwoThree();
    TallyOneToThree();
  }

  lemma FourNumbers()
    ensures Add("10,20,30,40") == Ok(100)
  {
    AddList([10, 20, 30, 40], ',', "", "");
    ListTens();
    TallyTens();
  }

  lemma NewlineAndComma()
    ensures Add("1\n2,3") == Ok(6)
  {
    ThreeNumbers();
    NewlineForComma();
    DefaultDelimitersInterchangeable("1,2,3", 1, '\n');
  }

  lemma NewlinesOnly()
    ensures Add("1\n2\n3") == Ok(6)
  {
    AddList([1, 2, 3], '\n', "", "");
    ListOneTwoThreeNewlines();
    TallyOneToThree();
  }

  lemma SemicolonHeader()
    ensures Add("//;\n1;2") == Ok(3)
  {
    AddCustomList(';', "", [1, 2], "", "");
    HeaderSemicolon();
    TallyOneToThree();
  }

  lemma BarHeader()
    ensures Add("//|\n1|2|3") == Ok(6)
  {
    AddCustomList('|', "", [1, 2, 3], "", "");
    HeaderBar();
    TallyOneToThree();
  }

  lemma DollarHeader()
    ensures Add("//$\n1$2$3") == Ok(6)
  {
    AddCustomList('$', "", [1, 2, 3], "", "");
    HeaderDollar();
    TallyOneToThree();
  }

  lemma HeaderThreeNumbers()
    ensures Add("//;\n1;2;3") == Ok(6)
  {
    AddCustomList(';', "", [1, 2, 3], "", "");
    HeaderSemicolonThree();
    TallyOneToThree();
  }

  lemma HeaderAndNewline()
    ensures Add("//;\n1;2\n3") == Ok(6)
  {
    HeaderThreeNumbers();
    HeaderNewlineBody();
    HeaderBody();
    CustomDelimitersInterchangeable(';', "", "1;2;3", 3, '\n');
  }

  lemma PaddedCommas()
    ensures Add(" 1 , 2 , 3 ") == Ok(6)
  {
    AddList([1, 2, 3], ',', " ", " ");
    ListSpaced();
    TallyOneToThree();
  }

  lemma PaddedNumbers()
    ensures Add(" 1 , 2 \n 3 ") == Ok(6)
  {
    PaddedCommas();
    NewlineForSpacedComma();
    DefaultDelimitersInterchangeable(" 1 , 2 , 3 ", 7, '\n');
  }

  lemma SingleNegative()
    ensures Add("-1") == Failure(NegativeNumbersNotAllowed([-1]))
  {
    AddList([-1], ',', "", "");
    ListMinusOne();
    TallyMinusOne();
  }

  lemma SingleNegativeDescription()
    ensures ErrorDescription(NegativeNumbersNotAllowed([-1])) == "Negative numbers not allowed: -1"
  {
  }

  lemma SeveralNegatives()
    ensures Add("1,-2,3,-4") == Failure(NegativeNumbersNotAllowed([-2, -4]))
  {
    AddList([1, -2, 3, -4], ',', "", "");
    ListMixedSigns();
    TallyMixedSigns();
  }

  lemma SeveralNegativesDescription()
    ensures ErrorDescription(NegativeNumbersNotAllowed([-2, -4])) == "Negative numbers not allowed: -2, -4"
  {
  }

  lemma ValuesOneTwo()
    ensures Values(["1", "2"]) == [1, 2]
  {
    RenderingIsToken(1);
    RenderingIsToken(2);
    assert IntToString(1) == "1" && IntToString(2) == "2";
    assert ["1", "2"][1..] == ["2"];
  }

  /** An empty token between two commas is skipped. */
  lemma EmptyTokenSkipped()
    ensures Add("1,,2") == Ok(3)
  {
    DefaultDelimitersWithoutHeader("1,,2");
    SplitDoubleComma();
    assert AllWhitespace("");
    SkippedTokenIsInert(["1"], "", ["2"]);
    assert ["1"] + [""] + ["2"] == ["1", "", "2"];
    assert ["1"] + ["2"] == ["1", "2"];
    ValuesOneTwo();
    TallyOneToThree();
  }
}
